=== FILE: README.md ===
# DocIntake delete-and-archive, modelled in Dafny

This project models the document-deletion core of the DocIntake backend.
A document record may be deleted only when its workflow status is
REJECTED. Deletion removes the document's content file, moves the record
from the active metadata store to the archive store, and stamps the
archived copy with who deleted it, when, and why. The HTTP handler wraps
this operation. It defaults the actor and the reason, writes one audit
event, and maps the outcome to 200, 404, 400 or 500.

The world is three stores:
- the metadata file and the archive file, each `Absent`, `Blank` or
  `Holds(list)`;
- the content area, a set of file names.

File-system faults that do not follow from the stores' state are injected
per step as `Option<string>` messages (record `Repository.Faults`). These
are faults of reading metadata, unlinking, writing metadata, reading the
archive and writing the archive. "No such file" is not injected: it
follows from the state (an `Absent` file, or a name not in the content set).
The handler's behaviour is a trace of effects in order: audit appends and
the response.

Modules (one file each):
- `Results`: `Option` and `Result`.
- `Json`: JSON values, JavaScript truthiness and `String()`.
- `Ascii`: upper-casing.
- `Documents`: records, their JSON field view, and archival.
- `Stores`: load, save and unlink.
- `Repository`: `archiveAndDeleteDocumentById`.
- `RepositoryProperties`: lemmas about it.
- `Controller`: `deleteDocumentHandler`.
- `ControllerProperties`: lemmas about it.

Two behaviours of the code are easy to miss:
- The repository's own defaults are `performedBy = "system"` and
  `reason = ""`. They apply only to an undefined option. The
  "No reason provided" default exists only in the handler.
- A failing audit append is not best-effort. A fault in the SUCCESS append
  turns a completed deletion into a 500 with a FAIL event. A fault in the
  FAIL append leaves the request with no event and no response.

## Model

| member | source | states |
|---|---|---|
| Ascii.Upper | DocIntake-FullStack-Lab2-Complete/src/repositories/documentRepository.js:55 | `toUpperCase` on ASCII: same length, each character upper-cased on its own |
| Ascii.UpperIgnoresCase | DocIntake-FullStack-Lab2-Complete/src/repositories/documentRepository.js:55 | strings that agree up to case have equal upper-case forms |
| Json.NatToString | DocIntake-FullStack-Lab2-Complete/src/repositories/documentRepository.js:45 | the exact decimal numeral of a natural number: non-empty, digits only, no leading zero; for the safe integers a JSON number holds this is what `String(n)` gives |
| Json.ParseNatToString | DocIntake-FullStack-Lab2-Complete/src/repositories/documentRepository.js:45 | round trip: reading the numeral back gives the number, so distinct numeric ids render distinctly |
| Json.JsStringCollisions | DocIntake-FullStack-Lab2-Complete/src/repositories/documentRepository.js:45 | `String()` renders an absent id as "undefined", a null one as "null" and a safe integer as its exact numeral, each equal to a string id |
| Documents.Archive | DocIntake-FullStack-Lab2-Complete/src/repositories/documentRepository.js:81-86 | the archived copy shows every original field except `archivedAt`/`archivedBy`/`deletionReason`, which show the given timestamp, actor and reason |
| Documents.RestoreArchive | DocIntake-FullStack-Lab2-Complete/src/repositories/documentRepository.js:81-86 | round trip: a record without archival fields is recovered exactly from its archived copy |
| Documents.ArchivedFieldsDetermine | DocIntake-FullStack-Lab2-Complete/src/repositories/documentRepository.js:81-86 | the field view of an archived record determines the record, so the view loses nothing |
| Stores.Load | DocIntake-FullStack-Lab2-Complete/src/repositories/documentRepository.js:9-31 | reading a missing (ENOENT) or empty store yields the empty list, a present one yields its list; any other fault propagates with its message |
| Stores.Save | DocIntake-FullStack-Lab2-Complete/src/repositories/documentRepository.js:19-35 | a write either fails with the injected fault or leaves a file holding exactly the given list, replacing whatever was there |
| Stores.LoadAfterSave | DocIntake-FullStack-Lab2-Complete/src/repositories/documentRepository.js:9-35 | round trip: what a successful save wrote is what a later load returns |
| Stores.Unlink | DocIntake-FullStack-Lab2-Complete/src/repositories/documentRepository.js:64-73 | `fs.unlink` succeeds iff the file exists and no fault is injected; it reports ENOENT iff the file is missing and no fault is injected |
| Stores.UnlinkTwiceMissing | DocIntake-FullStack-Lab2-Complete/src/repositories/documentRepository.js:64-73 | once unlink has removed a file, unlinking the same name again reports ENOENT |
| Repository.FindIndex | DocIntake-FullStack-Lab2-Complete/src/repositories/documentRepository.js:45 | `findIndex` over `String(d.id) === id`: none iff no record's rendered id is the requested one; otherwise an index whose rendered id matches, with no earlier match |
| Repository.RemoveAt | DocIntake-FullStack-Lab2-Complete/src/repositories/documentRepository.js:77 | `splice(idx, 1)`: one fewer element; the elements before `idx` stay in place and the ones after shift down by one, order kept |
| Repository.RemoveAtInverse | DocIntake-FullStack-Lab2-Complete/src/repositories/documentRepository.js:77 | putting the spliced element back at its index restores the list, and the multiset drops exactly that element |
| Repository.RemoveContent | DocIntake-FullStack-Lab2-Complete/src/repositories/documentRepository.js:61-74 | with an absent or empty filename the content area is untouched; otherwise the step fails iff a fault is injected, and on success the file is gone |
| Repository.ArchiveAndDelete | DocIntake-FullStack-Lab2-Complete/src/repositories/documentRepository.js:42-92 | a failure never touches the archive; NOT_FOUND and NOT_ALLOWED change no store; success appends the returned record to the archive and shortens the metadata by one |
| RepositoryProperties.NotFoundIff | DocIntake-FullStack-Lab2-Complete/src/repositories/documentRepository.js:44-50 | NOT_FOUND iff the metadata was read and no record has the id; then the stores are unchanged and the message names the id |
| RepositoryProperties.NotAllowedIff | DocIntake-FullStack-Lab2-Complete/src/repositories/documentRepository.js:52-59 | NOT_ALLOWED iff the first record with the id has a missing, empty or non-REJECTED status; then nothing is removed or written |
| RepositoryProperties.StatusGuardIgnoresCase | DocIntake-FullStack-Lab2-Complete/src/repositories/documentRepository.js:55 | the status guard gives the same answer for any two spellings that differ only in case |
| RepositoryProperties.StatusGuardExamples | DocIntake-FullStack-Lab2-Complete/src/repositories/documentRepository.js:55 | "rejected", "Rejected" and "REJECTED" pass the guard; "", an absent status and "PENDING" do not |
| RepositoryProperties.UnlinkFaultAborts | DocIntake-FullStack-Lab2-Complete/src/repositories/documentRepository.js:62-78 | an unlink fault other than ENOENT aborts with that message and leaves all three stores unchanged |
| RepositoryProperties.MissingContentSwallowed | DocIntake-FullStack-Lab2-Complete/src/repositories/documentRepository.js:64-73 | whether the content file exists or not, the result and the final metadata and archive are the same |
| RepositoryProperties.ContentGoneAfterRemoval | DocIntake-FullStack-Lab2-Complete/src/repositories/documentRepository.js:62-74 | once past the content step, the document's file is absent from the content area, whether it existed before or not |
| RepositoryProperties.SuccessIff | DocIntake-FullStack-Lab2-Complete/src/repositories/documentRepository.js:42-92 | success iff the metadata read succeeds, the first match is REJECTED, and the unlink (when there is a file), both writes and the archive read all go through |
| RepositoryProperties.SuccessShape | DocIntake-FullStack-Lab2-Complete/src/repositories/documentRepository.js:45-91 | on success the metadata is the old list minus exactly the first match, the archive is the old archive plus the archived copy, and that copy is the return value |
| RepositoryProperties.ArchivedStamp | DocIntake-FullStack-Lab2-Complete/src/repositories/documentRepository.js:42-91 | the returned record has the requested id, `archivedAt` = now, and `archivedBy`/`deletionReason` from the options, defaulting to "system" and "" when undefined |
| RepositoryProperties.LookupByRendering | DocIntake-FullStack-Lab2-Complete/src/repositories/documentRepository.js:45 | a record with no id is found by "undefined", one with a null id by "null", one with id 42 by "42" |
| RepositoryProperties.RemoveAtUnique | DocIntake-FullStack-Lab2-Complete/src/repositories/documentRepository.js:77 | splicing out one record keeps ids unique, and with unique ids no record with the removed id remains |
| RepositoryProperties.SuccessKeepsUniqueIds | DocIntake-FullStack-Lab2-Complete/src/repositories/documentRepository.js:45-78 | with unique ids, a successful delete leaves no active record with the id and keeps the ids unique |
| RepositoryProperties.ArchiveFaultLosesRecord | DocIntake-FullStack-Lab2-Complete/src/repositories/documentRepository.js:76-89 | an archive read or write fault after the metadata write leaves the record in neither store (the known gap) |
| Controller.PerformedBy | DocIntake-FullStack-Lab2-Complete/src/controllers/documentController.js:8 | the actor is the `x-user` header, or "unknown" when it is absent or empty; never empty |
| Controller.Reason | DocIntake-FullStack-Lab2-Complete/src/controllers/documentController.js:9 | a truthy body reason of any JSON type passes through unchanged; an absent or falsy one ("", 0, false, null) becomes "No reason provided"; the result is always truthy |
| Controller.ErrorResponse | DocIntake-FullStack-Lab2-Complete/src/controllers/documentController.js:40-42 | NOT_FOUND maps to 404, NOT_ALLOWED to 400 and any other error to 500, each iff; an error never maps to 200 |
| Controller.DeleteDocumentHandler | DocIntake-FullStack-Lab2-Complete/src/controllers/documentController.js:6-44 | the stores change exactly as the repository changes them when called with the request id and the defaulted actor and reason; every event appended carries that same id, actor and reason, and has an error iff it is a FAIL event |
| Controller.AppendAll | DocIntake-FullStack-Lab2-Complete/src/utils/auditLogger.js:6-10 | the audit log is append-only: the old log is a prefix of the new one, which grows by at most one line per effect |
| ControllerProperties.AuditPrecedesResponse | DocIntake-FullStack-Lab2-Complete/src/controllers/documentController.js:11-43 | a response is always preceded by exactly one audit append; there is no effect at all exactly when the FAIL append throws |
| ControllerProperties.SuccessPath | DocIntake-FullStack-Lab2-Complete/src/controllers/documentController.js:13-27 | repository success with a working log: one DELETE_DOCUMENT/SUCCESS event without an error, then 200 carrying the archived record |
| ControllerProperties.FailurePath | DocIntake-FullStack-Lab2-Complete/src/controllers/documentController.js:28-42 | repository failure with a working log: one FAIL event whose error is the thrown message, then the mapped error response |
| ControllerProperties.ErrorMapping | DocIntake-FullStack-Lab2-Complete/src/controllers/documentController.js:40-42 | the status is 404, 400 or 500 by error code; 404 and 400 carry the message, 500 carries it as `details` |
| ControllerProperties.AuditFaultAfterSuccess | DocIntake-FullStack-Lab2-Complete/src/controllers/documentController.js:15-38 | a fault in the SUCCESS append after a completed deletion yields one FAIL event with the audit fault's message and a 500, with the record already archived |
| ControllerProperties.LogGrowsByOne | DocIntake-FullStack-Lab2-Complete/src/controllers/documentController.js:15-38 | each request grows the audit log by exactly its one event, or leaves it unchanged when no response is produced |
| ControllerProperties.DefaultsAreStable | DocIntake-FullStack-Lab2-Complete/src/controllers/documentController.js:8-9 | defaulting an already-defaulted actor or reason changes nothing |
| ControllerProperties.ReasonExamples | DocIntake-FullStack-Lab2-Complete/src/controllers/documentController.js:9 | 5 and true pass through as reasons; 0, false, null, "" and an absent reason become "No reason provided" |
| ControllerProperties.RejectedScenario | DocIntake-FullStack-Lab2-Complete/src/controllers/documentController.js:6-44 | a REJECTED document "42" with "a.pdf" deleted by "alice": metadata empties, the archive gains the stamped copy, the file goes, one SUCCESS event, then 200 |
| ControllerProperties.PendingScenario | DocIntake-FullStack-Lab2-Complete/src/controllers/documentController.js:6-44 | a PENDING document: stores untouched, one FAIL event with the defaulted actor and reason, then 400 |

## Left out

- File-system I/O and paths are left out: `fs.readFile`, `writeFile`, `unlink`, `path.join` with `CONTENT_DIR`, and what a filename containing `..` resolves to. The stores are abstract values, and faults are injected messages.
- JSON parsing and serialisation are left out. A corrupt file is one more injected read fault. JSON values are strings, safe integers (magnitude at most 2^53 - 1), booleans and null; nested arrays and objects, non-integer numbers and larger integers are not represented.
- Stores.Save: a failed write leaves the file unchanged. A real `writeFile` fault may leave the file truncated.
- Repository.FindIndex: a stored id may be absent, null, a string, an integer or a boolean, and is compared through its `String()` rendering. Ids that are objects, arrays, non-integer numbers or integers of magnitude above 2^53 - 1 are not represented. For those `String()` gives `"[object Object]"`, `"1.5"`, a rounded numeral padded with zeros (`String(2**56)` is `"72057594037927940"`), or exponent form from 1e21 on.
- Json.NatToString: renders every natural number exactly. The model applies it only to safe integers, the range where `String()` prints the exact numeral. Beyond 2^53 - 1, `String()` rounds to a 17-digit numeral padded with zeros, and from 1e21 on it uses exponent form.
- Json.JsStringCollisions: states the numeral rendering for safe integers only, because larger integers are not represented (see the line above).
- Controller.Reason: a body reason that is an object or an array is not represented. Such a value is truthy and would pass through unchanged. NaN and -0 are not represented either.
- A status or filename that is present but not a string is not represented. A truthy non-string status throws a TypeError from `toUpperCase` and ends in a 500; a falsy one (`0`, `false`) gets NOT_ALLOWED.
- A status stored as JSON `null` is represented as absent. It gets the same guard result, but the NOT_ALLOWED message says "undefined" where the source would say "null".
- Ascii.Upper upper-cases ASCII letters only, not full Unicode `toUpperCase`. No non-ASCII character upper-cases into a string made only of the letters R, E, J, C, T and D, so the guard's verdict is the same.
- Clock reads are the single parameter `now`. The archive stamp and the audit timestamps of one request share it; the source reads the clock separately each time.
- Concurrency is left out: interleaving of two deletes of the same id (the double-archive race) and crash atomicity. The crash gap between the metadata write and the archive write appears only as an injected archive fault (`ArchiveFaultLosesRecord`).
- Controller.DeleteDocumentHandler: when the FAIL append throws, the handler's promise rejects. The model records no event and no response. What the web framework then does with the rejection is not modelled.
- The audit logger is modelled only as appending one event to a list. Its one-line-per-event JSON format is left out.
- `routes/document.js` is left out: it is routing glue that binds DELETE `/:id` to the handler.

=== FILE: ascii.dfy ===
/** ASCII case mapping, standing in for `String.prototype.toUpperCase`. */
module Ascii {

  /** Upper case of one character: `a`..`z` become `A`..`Z`, everything else is kept. */
  function UpperChar(c: char): char {
    if 'a' <= c <= 'z' then (c as int - 32) as char else c
  }

  /** Upper case of a string, character by character. */
  function Upper(s: string): (r: string)
    ensures |r| == |s|
    ensures forall i :: 0 <= i < |s| ==> r[i] == UpperChar(s[i])
  {
    if s == [] then [] else [UpperChar(s[0])] + Upper(s[1..])
  }

  /** Two strings that agree up to case have the same upper case. */
  lemma UpperIgnoresCase(s: string, t: string)
    requires |s| == |t|
    requires forall i :: 0 <= i < |s| ==> UpperChar(s[i]) == UpperChar(t[i])
    ensures Upper(s) == Upper(t)
  {
  }
}

=== FILE: controller.dfy ===
/** `deleteDocumentHandler`: reads the request, calls the repository, writes
    one audit event and answers with a status class.

    The handler's observable behaviour is a trace of effects in the order
    they happen: audit appends and the response. */
module Controller {
  import opened Results
  import opened Json
  import opened Documents
  import opened Stores
  import opened Repository

  /** The request fields the handler reads: `req.params.id`,
      `req.headers['x-user']` and `req.body?.reason` (`None`: undefined;
      the body's reason may be any JSON value). */
  datatype HttpRequest = HttpRequest(id: string, xUser: Option<string>, bodyReason: Option<Value>)

  datatype AuditResult = Succeeded | Failed {
    /** The string written to the log. */
    function Label(): string {
      match this
      case Succeeded => "SUCCESS"
      case Failed => "FAIL"
    }
  }

  /** One line of the audit log. `error` is present on FAIL events only. */
  datatype AuditEvent = AuditEvent(
    action: string,
    id: string,
    performedBy: string,
    reason: Value,
    result: AuditResult,
    error: Option<string>,
    timestamp: string)

  const DeleteAction := "DELETE_DOCUMENT"
  const DeletedMessage := "Document content physically removed and metadata archived."
  const InternalError := "Internal server error"

  /** The JSON responses, one constructor per status code. */
  datatype Response =
    | Ok200(message: string, archivedMetadata: ArchivedDoc)
    | NotFound404(error: string)
    | BadRequest400(error: string)
    | Internal500(error: string, details: string)

  function StatusCode(r: Response): int {
    match r
    case Ok200(_, _) => 200
    case NotFound404(_) => 404
    case BadRequest400(_) => 400
    case Internal500(_, _) => 500
  }

  /** An observable step of the handler. */
  datatype Effect = Appended(event: AuditEvent) | Responded(response: Response)

  /** Injected faults of the two `appendAudit` calls. */
  datatype AuditFaults = AuditFaults(onSuccess: Option<string>, onFail: Option<string>)

  /** The stores after the call and the effects in order. */
  datatype Handled = Handled(world: World, trace: seq<Effect>)

  /** `req.headers['x-user'] || 'unknown'`: an absent or empty header gives "unknown". */
  function PerformedBy(xUser: Option<string>): (r: string)
    ensures r != ""
    ensures xUser.Some? && xUser.value != "" ==> r == xUser.value
    ensures xUser.None? || xUser.value == "" ==> r == "unknown"
  {
    match xUser
    case Some(u) => if u != "" then u else "unknown"
    case None => "unknown"
  }

  const NoReason := Text("No reason provided")

  /** `req.body?.reason || 'No reason provided'`: a truthy reason of any type
      passes through unchanged, an absent or falsy one is replaced. */
  function Reason(bodyReason: Option<Value>): (r: Value)
    ensures Truthy(r)
    ensures bodyReason.Some? && Truthy(bodyReason.value) ==> r == bodyReason.value
    ensures bodyReason.None? || !Truthy(bodyReason.value) ==> r == NoReason
  {
    match bodyReason
    case Some(v) => if Truthy(v) then v else NoReason
    case None => NoReason
  }

  /** The options the handler passes to the repository. */
  function RepositoryRequest(req: HttpRequest): Request {
    Request(req.id, Some(PerformedBy(req.xUser)), Some(Reason(req.bodyReason)))
  }

  /** The three-way mapping from error code to response. */
  function ErrorResponse(e: Error): (r: Response)
    ensures !r.Ok200?
    ensures r.NotFound404? <==> e.NotFound?
    ensures r.BadRequest400? <==> e.NotAllowed?
    ensures r.Internal500? <==> e.StorageFault?
  {
    match e
    case NotFound(m) => NotFound404(m)
    case NotAllowed(m) => BadRequest400(m)
    case StorageFault(m) => Internal500(InternalError, m)
  }

  function Event(req: HttpRequest, result: AuditResult, error: Option<string>, now: string): AuditEvent {
    AuditEvent(DeleteAction, req.id, PerformedBy(req.xUser), Reason(req.bodyReason), result, error, now)
  }

  /** The `catch` block: a FAIL event carrying the message, then the error
      response. If that append throws too, the handler's promise rejects and
      no response is written. */
  function Catch(req: HttpRequest, e: Error, now: string, failFault: Option<string>): seq<Effect> {
    match failFault
    case Some(_) => []
    case None => [Appended(Event(req, Failed, Some(e.message), now)), Responded(ErrorResponse(e))]
  }

  /** The handler. A fault of the SUCCESS append is caught by the same
      `catch` as a repository error. */
  function DeleteDocumentHandler(w: World, req: HttpRequest, now: string, io: Faults, audit: AuditFaults): (h: Handled)
    ensures h.world == ArchiveAndDelete(w, Request(req.id, Some(PerformedBy(req.xUser)), Some(Reason(req.bodyReason))), now, io).world
    ensures forall k :: 0 <= k < |h.trace| && h.trace[k].Appended? ==>
      && h.trace[k].event.action == DeleteAction
      && h.trace[k].event.id == req.id
      && h.trace[k].event.performedBy == PerformedBy(req.xUser)
      && h.trace[k].event.reason == Reason(req.bodyReason)
      && (h.trace[k].event.result == Failed <==> h.trace[k].event.error.Some?)
  {
    var o := ArchiveAndDelete(w, RepositoryRequest(req), now, io);
    match o.result
    case Success(archived) =>
      (match audit.onSuccess
       case None =>
         Handled(o.world, [Appended(Event(req, Succeeded, None, now)), Responded(Ok200(DeletedMessage, archived))])
       case Some(m) => Handled(o.world, Catch(req, StorageFault(m), now, audit.onFail)))
    case Failure(e) => Handled(o.world, Catch(req, e, now, audit.onFail))
  }

  /** `appendAudit`: the log after the trace's appends, in order. */
  function AppendAll(log: seq<AuditEvent>, trace: seq<Effect>): (r: seq<AuditEvent>)
    ensures |log| <= |r| <= |log| + |trace|
    ensures r[..|log|] == log
    decreases trace
  {
    if trace == [] then log
    else if trace[0].Appended? then AppendAll(log + [trace[0].event], trace[1..])
    else AppendAll(log, trace[1..])
  }
}

=== FILE: controller_properties.dfy ===
/** What `deleteDocumentHandler` promises, stated over all inputs. */
module ControllerProperties {
  import opened Results
  import opened Json
  import opened Documents
  import opened Stores
  import opened Repository
  import opened Controller

  /** Every trace is either empty (the FAIL append itself threw) or one
      audit append followed by the response: the event is written before
      the answer, and exactly one event accompanies every answer. */
  lemma AuditPrecedesResponse(w: World, req: HttpRequest, now: string, io: Faults, audit: AuditFaults)
    ensures var t := DeleteDocumentHandler(w, req, now, io, audit).trace;
      t == [] || (|t| == 2 && t[0].Appended? && t[1].Responded?)
    ensures var t := DeleteDocumentHandler(w, req, now, io, audit).trace;
      t == [] <==>
        (audit.onFail.Some? &&
         (ArchiveAndDelete(w, RepositoryRequest(req), now, io).result.Failure? || audit.onSuccess.Some?))
  {
  }

  /** Repository success with a working audit log: one SUCCESS event
      without an error, then 200 carrying the archived record. */
  lemma SuccessPath(w: World, req: HttpRequest, now: string, io: Faults, audit: AuditFaults)
    requires ArchiveAndDelete(w, RepositoryRequest(req), now, io).result.Success?
    requires audit.onSuccess.None?
    ensures var h := DeleteDocumentHandler(w, req, now, io, audit);
            var archived := ArchiveAndDelete(w, RepositoryRequest(req), now, io).result.value;
      && |h.trace| == 2
      && h.trace[0] == Appended(AuditEvent(DeleteAction, req.id, PerformedBy(req.xUser), Reason(req.bodyReason), Succeeded, None, now))
      && h.trace[1] == Responded(Ok200(DeletedMessage, archived))
      && StatusCode(h.trace[1].response) == 200
      && ArchivedField(archived, "archivedBy") == Some(Text(PerformedBy(req.xUser)))
      && ArchivedField(archived, "deletionReason") == Some(Reason(req.bodyReason))
  {
  }

  /** Repository failure with a working audit log: one FAIL event whose
      error is the thrown message, then the mapped error response. */
  lemma FailurePath(w: World, req: HttpRequest, now: string, io: Faults, audit: AuditFaults)
    requires ArchiveAndDelete(w, RepositoryRequest(req), now, io).result.Failure?
    requires audit.onFail.None?
    ensures var h := DeleteDocumentHandler(w, req, now, io, audit);
            var e := ArchiveAndDelete(w, RepositoryRequest(req), now, io).result.error;
      && h.trace == [Appended(AuditEvent(DeleteAction, req.id, PerformedBy(req.xUser), Reason(req.bodyReason), Failed, Some(e.message), now)),
                     Responded(ErrorResponse(e))]
      && h.world == ArchiveAndDelete(w, RepositoryRequest(req), now, io).world
  {
  }

  /** The error mapping is total and disjoint: NOT_FOUND gives 404 and
      NOT_ALLOWED 400, each with the message; anything else gives 500 with
      the message as `details`. */
  lemma ErrorMapping(e: Error)
    ensures StatusCode(ErrorResponse(e)) == (if e.NotFound? then 404 else if e.NotAllowed? then 400 else 500)
    ensures e.NotFound? ==> ErrorResponse(e) == NotFound404(e.message)
    ensures e.NotAllowed? ==> ErrorResponse(e) == BadRequest400(e.message)
    ensures e.StorageFault? ==> ErrorResponse(e) == Internal500(InternalError, e.message)
  {
  }

  /** A fault in the SUCCESS append is caught like a repository error: the
      record has already been archived, yet the caller sees 500 and the log
      holds a single FAIL event with the audit fault's message. */
  lemma AuditFaultAfterSuccess(w: World, req: HttpRequest, now: string, io: Faults, audit: AuditFaults)
    requires ArchiveAndDelete(w, RepositoryRequest(req), now, io).result.Success?
    requires audit.onSuccess.Some? && audit.onFail.None?
    ensures var h := DeleteDocumentHandler(w, req, now, io, audit);
      && h.world == ArchiveAndDelete(w, RepositoryRequest(req), now, io).world
      && h.trace == [Appended(AuditEvent(DeleteAction, req.id, PerformedBy(req.xUser), Reason(req.bodyReason), Failed, audit.onSuccess, now)),
                     Responded(Internal500(InternalError, audit.onSuccess.value))]
  {
  }

  /** The audit log only grows, by one event per answered request. */
  lemma LogGrowsByOne(log: seq<AuditEvent>, w: World, req: HttpRequest, now: string, io: Faults, audit: AuditFaults)
    ensures var t := DeleteDocumentHandler(w, req, now, io, audit).trace;
      AppendAll(log, t) == (if t == [] then log else log + [t[0].event])
  {
  }

  /** The concrete scenario of a REJECTED document with its file present. */
  lemma RejectedScenario()
    ensures var doc := Doc(Some(Text("42")), Some("REJECTED"), Some("a.pdf"), map[]);
            var w := World(Holds([doc]), Absent, {"a.pdf"});
            var req := HttpRequest("42", Some("alice"), Some(Text("bad scan")));
            var h := DeleteDocumentHandler(w, req, "T", NoFaults, AuditFaults(None, None));
      && h.world == World(Holds([]), Holds([Archive(doc, "T", "alice", Text("bad scan"))]), {})
      && |h.trace| == 2 && h.trace[0].Appended? && h.trace[0].event.result == Succeeded
      && h.trace[1] == Responded(Ok200(DeletedMessage, Archive(doc, "T", "alice", Text("bad scan"))))
  {
  }

  /** The concrete scenario of a PENDING document: refused with 400, stores untouched. */
  lemma PendingScenario()
    ensures var w := World(Holds([Doc(Some(Text("7")), Some("PENDING"), None, map[])]), Absent, {});
            var req := HttpRequest("7", None, None);
            var h := DeleteDocumentHandler(w, req, "T", NoFaults, AuditFaults(None, None));
      && h.world == w
      && |h.trace| == 2 && h.trace[0].Appended? && h.trace[0].event.result == Failed
      && h.trace[0].event.performedBy == "unknown" && h.trace[0].event.reason == NoReason
      && h.trace[1].Responded? && StatusCode(h.trace[1].response) == 400
  {
  }

  /** The defaults leave an already-defaulted value alone: the actor and
      reason the handler settles on are fixed points of their defaulting. */
  lemma DefaultsAreStable(xUser: Option<string>, bodyReason: Option<Value>)
    ensures PerformedBy(Some(PerformedBy(xUser))) == PerformedBy(xUser)
    ensures Reason(Some(Reason(bodyReason))) == Reason(bodyReason)
  {
  }

  /** Reasons of other JSON types: a truthy number or flag is passed through
      to the archive and the log; 0, false, null and "" are replaced. */
  lemma ReasonExamples()
    ensures Reason(Some(Number(5))) == Number(5) && Reason(Some(Flag(true))) == Flag(true)
    ensures Reason(Some(Number(0))) == NoReason && Reason(Some(Flag(false))) == NoReason
    ensures Reason(Some(Null)) == NoReason && Reason(Some(Text(""))) == NoReason && Reason(None) == NoReason
  {
  }
}

=== FILE: documents.dfy ===
/** Document records and their archived copies.

    A record read from the metadata file is a JSON object. The core reads
    three of its fields (`id`, `status`, `filename`); every other field is
    carried in an opaque bag and copied verbatim on archival. */
module Documents {
  import opened Results
  import opened Json

  /** The fields the archival step writes over the original record. */
  const ArchivalKeys: set<string> := {"archivedAt", "archivedBy", "deletionReason"}

  /** An active document. Each of the three known fields is `None` when it
      is absent; `id` may hold any JSON value, and the lookup compares its
      `String()` rendering. Keys of `extra` that collide with `id`, `status`
      or `filename` are shadowed by those fields. */
  datatype Doc = Doc(id: Option<Value>, status: Option<string>, filename: Option<string>, extra: map<string, Value>)

  /** An archived document: the original record with the three archival
      keys dropped from its bag, and those three fields set afresh. The
      reason is whatever JSON value the caller passed. */
  datatype ArchivedDoc = ArchivedDoc(snapshot: Doc, archivedAt: string, archivedBy: string, deletionReason: Value)

  function TextField(v: Option<string>): Option<Value> {
    match v
    case Some(s) => Some(Text(s))
    case None => None
  }

  /** The JSON object view of an active record: the value stored under `key`. */
  function Field(d: Doc, key: string): Option<Value> {
    if key == "id" then d.id
    else if key == "status" then TextField(d.status)
    else if key == "filename" then TextField(d.filename)
    else if key in d.extra then Some(d.extra[key])
    else None
  }

  /** The JSON object view of an archived record. */
  function ArchivedField(a: ArchivedDoc, key: string): Option<Value> {
    if key == "archivedAt" then Some(Text(a.archivedAt))
    else if key == "archivedBy" then Some(Text(a.archivedBy))
    else if key == "deletionReason" then Some(a.deletionReason)
    else Field(a.snapshot, key)
  }

  /** `{ ...doc, archivedAt, archivedBy, deletionReason }`: every field of
      the original survives except the three archival ones, which take the
      given values. */
  function Archive(d: Doc, at: string, actor: string, why: Value): (r: ArchivedDoc)
    ensures forall key :: key !in ArchivalKeys ==> ArchivedField(r, key) == Field(d, key)
    ensures ArchivedField(r, "archivedAt") == Some(Text(at))
    ensures ArchivedField(r, "archivedBy") == Some(Text(actor))
    ensures ArchivedField(r, "deletionReason") == Some(why)
    ensures r.snapshot.extra.Keys !! ArchivalKeys
    ensures r.snapshot.id == d.id && r.snapshot.status == d.status && r.snapshot.filename == d.filename
  {
    ArchivedDoc(d.(extra := d.extra - ArchivalKeys), at, actor, why)
  }

  /** The active record an archived one was made from. */
  function Restore(a: ArchivedDoc): Doc {
    a.snapshot
  }

  /** Archival loses nothing of a record that does not already carry
      archival fields: restoring gives the record back. */
  lemma RestoreArchive(d: Doc, at: string, actor: string, why: Value)
    requires d.extra.Keys !! ArchivalKeys
    ensures Restore(Archive(d, at, actor, why)) == d
  {
  }

  /** Two archived records with the same field view are the same record
      once their bags carry no archival key: the view loses nothing. */
  lemma ArchivedFieldsDetermine(a: ArchivedDoc, b: ArchivedDoc)
    requires a.snapshot.extra.Keys !! ArchivalKeys && b.snapshot.extra.Keys !! ArchivalKeys
    requires a.snapshot.extra.Keys !! {"id", "status", "filename"}
    requires b.snapshot.extra.Keys !! {"id", "status", "filename"}
    requires forall key :: ArchivedField(a, key) == ArchivedField(b, key)
    ensures a == b
  {
    assert ArchivedField(a, "archivedAt") == ArchivedField(b, "archivedAt");
    assert ArchivedField(a, "archivedBy") == ArchivedField(b, "archivedBy");
    assert ArchivedField(a, "deletionReason") == ArchivedField(b, "deletionReason");
    assert ArchivedField(a, "id") == ArchivedField(b, "id");
    assert ArchivedField(a, "status") == ArchivedField(b, "status");
    assert ArchivedField(a, "filename") == ArchivedField(b, "filename");
    forall key | key in a.snapshot.extra
      ensures key in b.snapshot.extra && a.snapshot.extra[key] == b.snapshot.extra[key]
    {
      assert ArchivedField(a, key) == ArchivedField(b, key);
    }
    forall key | key in b.snapshot.extra
      ensures key in a.snapshot.extra
    {
      assert ArchivedField(a, key) == ArchivedField(b, key);
    }
    assert a.snapshot.extra == b.snapshot.extra;
  }
}

=== FILE: json.dfy ===
/** JSON values as JavaScript sees them: truthiness and `String(v)`. */
module Json {
  import opened Results

  /** The largest integer a JavaScript number holds together with all its
      neighbours (2^53 - 1). Up to this magnitude `String()` prints the
      exact decimal numeral. */
  const MaxSafeInteger: int := 9007199254740991

  /** Integers a JavaScript number represents and prints exactly. */
  type SafeInt = n: int | -MaxSafeInteger <= n <= MaxSafeInteger

  type SafeNat = n: int | 0 <= n <= MaxSafeInteger

  /** A JSON value. Numbers are the safe integers. */
  datatype Value = Text(s: string) | Number(n: SafeInt) | Flag(b: bool) | Null

  /** JavaScript truthiness: `""`, `0`, `false` and `null` are falsy. */
  predicate Truthy(v: Value) {
    match v
    case Text(s) => s != ""
    case Number(n) => n != 0
    case Flag(b) => b
    case Null => false
  }

  function Digit(d: nat): (c: char)
    requires d < 10
    ensures '0' <= c <= '9'
  {
    ('0' as int + d) as char
  }

  predicate AllDigits(s: string) {
    forall i :: 0 <= i < |s| ==> '0' <= s[i] <= '9'
  }

  /** Decimal numeral of a natural number, most significant digit first. */
  function NatToString(n: nat): (r: string)
    ensures |r| >= 1 && AllDigits(r)
    ensures r[0] == '0' ==> n == 0
    decreases n
  {
    if n < 10 then [Digit(n)] else NatToString(n / 10) + [Digit(n % 10)]
  }

  /** The value of a decimal numeral. */
  function ParseNat(s: string): nat
    requires AllDigits(s)
  {
    if s == [] then 0 else ParseNat(s[..|s| - 1]) * 10 + (s[|s| - 1] as int - '0' as int)
  }

  /** Rendering a number and reading it back gives the number. */
  lemma {:induction false} ParseNatToString(n: nat)
    ensures ParseNat(NatToString(n)) == n
    decreases n
  {
    if n >= 10 {
      var r := NatToString(n);
      assert r[..|r| - 1] == NatToString(n / 10);
      ParseNatToString(n / 10);
    }
  }

  /** `String(v)` of a field that may be absent (`undefined`). */
  function JsString(v: Option<Value>): string {
    match v
    case None => "undefined"
    case Some(Text(s)) => s
    case Some(Number(n)) => if n < 0 then "-" + NatToString(-n) else NatToString(n)
    case Some(Flag(b)) => if b then "true" else "false"
    case Some(Null) => "null"
  }

  /** A missing field and a null one render as the words "undefined" and
      "null", and a safe integer as its exact numeral, so each equals a
      string value. */
  lemma JsStringCollisions(n: SafeNat)
    ensures JsString(None) == JsString(Some(Text("undefined")))
    ensures JsString(Some(Null)) == JsString(Some(Text("null")))
    ensures JsString(Some(Number(n))) == JsString(Some(Text(NatToString(n))))
    ensures JsString(Some(Number(42))) == "42"
  {
  }
}

=== FILE: repository.dfy ===
/** `archiveAndDeleteDocumentById`: the guarded delete. A document may be
    deleted only when its status is REJECTED; its content file is removed
    first, then the record leaves the metadata file and a stamped copy is
    appended to the archive file. */
module Repository {
  import opened Results
  import opened Ascii
  import opened Json
  import opened Documents
  import opened Stores

  /** The error codes the operation throws with, each with its message. */
  datatype Error = NotFound(message: string) | NotAllowed(message: string) | StorageFault(message: string)

  /** The options object `{ id, performedBy, reason }`; `None` is `undefined`.
      The reason is passed through as whatever JSON value the caller has. */
  datatype Request = Request(id: string, performedBy: Option<string>, reason: Option<Value>)

  /** Injected file-system faults, one per I/O step (`None`: the step does
      not fail for a reason other than the state of the store). */
  datatype Faults = Faults(
    readMeta: Option<string>,
    unlink: Option<string>,
    writeMeta: Option<string>,
    readArchive: Option<string>,
    writeArchive: Option<string>)

  /** The three stores. */
  datatype World = World(meta: FileState<Doc>, archive: FileState<ArchivedDoc>, content: set<string>)

  /** The state left behind and what the call returned or threw. */
  datatype Outcome = Outcome(world: World, result: Result<ArchivedDoc, Error>)

  const NoFaults := Faults(None, None, None, None, None)

  /** Default parameters: `performedBy = 'system'`, `reason = ''`; they apply
      only when the option is `undefined`. */
  function ArchivedBy(req: Request): string {
    match req.performedBy
    case Some(p) => p
    case None => "system"
  }

  function DeletionReason(req: Request): Value {
    match req.reason
    case Some(v) => v
    case None => Text("")
  }

  function NotFoundMessage(id: string): string {
    "Document with id " + id + " not found"
  }

  /** `${doc.status}` in a template literal. */
  function StatusText(status: Option<string>): string {
    match status
    case Some(s) => s
    case None => "undefined"
  }

  function NotAllowedMessage(id: string, status: Option<string>): string {
    "Document id " + id + " cannot be deleted \U{2014} status is " + StatusText(status)
  }

  /** `String(d.id) === String(id)`: the request id is already a string. */
  predicate IdMatches(d: Doc, id: string) {
    JsString(d.id) == id
  }

  ghost predicate HasId(docs: seq<Doc>, id: string) {
    exists j :: 0 <= j < |docs| && IdMatches(docs[j], id)
  }

  /** Ids are unique in the metadata file, as the lookup compares them (an
      invariant the callers keep, not one this operation checks). */
  ghost predicate UniqueIds(docs: seq<Doc>) {
    forall i, j :: 0 <= i < j < |docs| ==> JsString(docs[i].id) != JsString(docs[j].id)
  }

  /** `docs.findIndex(d => String(d.id) === String(id))`: the first index
      whose id matches, or `None` (the source's -1) when there is none. */
  function FindIndex(docs: seq<Doc>, id: string): (r: Option<nat>)
    ensures r.None? <==> !HasId(docs, id)
    ensures r.Some? ==> r.value < |docs| && IdMatches(docs[r.value], id)
    ensures r.Some? ==> forall j :: 0 <= j < r.value ==> !IdMatches(docs[j], id)
  {
    if docs == [] then None
    else if IdMatches(docs[0], id) then Some(0)
    else
      match FindIndex(docs[1..], id)
      case None =>
        assert forall j :: 1 <= j < |docs| ==> docs[j] == docs[1..][j - 1];
        None
      case Some(i) =>
        assert forall j :: 1 <= j <= i ==> docs[j] == docs[1..][j - 1];
        Some(i + 1)
  }

  /** `docs.splice(i, 1)`: the list without position `i`, the others in
      their original order. */
  function RemoveAt<T>(s: seq<T>, i: nat): (r: seq<T>)
    requires i < |s|
    ensures |r| == |s| - 1
    ensures forall j :: 0 <= j < i ==> r[j] == s[j]
    ensures forall j :: i <= j < |r| ==> r[j] == s[j + 1]
  {
    s[..i] + s[i + 1..]
  }

  /** Splicing an element out and back in at the same place is the identity. */
  lemma RemoveAtInverse<T>(s: seq<T>, i: nat)
    requires i < |s|
    ensures RemoveAt(s, i)[..i] + [s[i]] + RemoveAt(s, i)[i..] == s
    ensures multiset(RemoveAt(s, i)) + multiset{s[i]} == multiset(s)
  {
  }

  /** The status guard: present, non-empty, and REJECTED up to case. */
  predicate IsRejected(status: Option<string>) {
    status.Some? && status.value != "" && Upper(status.value) == "REJECTED"
  }

  /** `if (doc.filename)`: a present, non-empty filename. */
  predicate HasContent(d: Doc) {
    d.filename.Some? && d.filename.value != ""
  }

  /** The content area after the removal step, or the fault that aborts the
      operation. A missing file (ENOENT) is not an error. */
  function RemoveContent(content: set<string>, d: Doc, fault: Option<string>): (r: Result<set<string>, string>)
    ensures !HasContent(d) ==> r == Success(content)
    ensures HasContent(d) ==>
      (r.Failure? <==> fault.Some?) && (r.Success? ==> r.value == content - {d.filename.value})
  {
    if !HasContent(d) then Success(content)
    else
      match Unlink(content, d.filename.value, fault)
      case Ok => Success(content - {d.filename.value})
      case Missing => Success(content)
      case Fault(m) => Failure(m)
  }

  /** The whole operation, step by step; each step may end it. */
  function ArchiveAndDelete(w: World, req: Request, now: string, io: Faults): (o: Outcome)
    ensures o.result.Failure? ==> o.world.archive == w.archive
    ensures o.result.Failure? && !o.result.error.StorageFault? ==> o.world == w
    ensures o.result.Success? ==> o.world.archive == Holds(Items(w.archive) + [o.result.value])
    ensures o.result.Success? ==> |Items(o.world.meta)| == |Items(w.meta)| - 1
  {
    match Load(w.meta, io.readMeta)
    case Failure(m) => Outcome(w, Failure(StorageFault(m)))
    case Success(docs) =>
      match FindIndex(docs, req.id)
      case None => Outcome(w, Failure(NotFound(NotFoundMessage(req.id))))
      case Some(idx) =>
        var doc := docs[idx];
        if !IsRejected(doc.status) then
          Outcome(w, Failure(NotAllowed(NotAllowedMessage(req.id, doc.status))))
        else
          match RemoveContent(w.content, doc, io.unlink)
          case Failure(m) => Outcome(w, Failure(StorageFault(m)))
          case Success(content) =>
            var w1 := w.(content := content);
            match Save(RemoveAt(docs, idx), io.writeMeta)
            case Failure(m) => Outcome(w1, Failure(StorageFault(m)))
            case Success(metaFile) =>
              var w2 := w1.(meta := metaFile);
              var archived := Archive(doc, now, ArchivedBy(req), DeletionReason(req));
              match Load(w.archive, io.readArchive)
              case Failure(m) => Outcome(w2, Failure(StorageFault(m)))
              case Success(arr) =>
                match Save(arr + [archived], io.writeArchive)
                case Failure(m) => Outcome(w2, Failure(StorageFault(m)))
                case Success(archiveFile) => Outcome(w2.(archive := archiveFile), Success(archived))
  }
}

=== FILE: repository_properties.dfy ===
/** What `archiveAndDeleteDocumentById` promises, stated over all inputs. */
module RepositoryProperties {
  import opened Results
  import opened Ascii
  import opened Json
  import opened Documents
  import opened Stores
  import opened Repository

  /** An unknown id is rejected with NOT_FOUND exactly when the metadata
      could be read, and then no store changes. */
  lemma NotFoundIff(w: World, req: Request, now: string, io: Faults)
    ensures var o := ArchiveAndDelete(w, req, now, io);
      (o.result.Failure? && o.result.error.NotFound?) <==> (io.readMeta.None? && !HasId(Items(w.meta), req.id))
    ensures var o := ArchiveAndDelete(w, req, now, io);
      o.result.Failure? && o.result.error.NotFound? ==>
        o.world == w && o.result.error.message == NotFoundMessage(req.id)
  {
  }

  /** NOT_ALLOWED exactly when the first record with the id fails the status
      guard; nothing is removed or written. */
  lemma NotAllowedIff(w: World, req: Request, now: string, io: Faults)
    ensures var o := ArchiveAndDelete(w, req, now, io);
      (o.result.Failure? && o.result.error.NotAllowed?) <==>
        (io.readMeta.None? && HasId(Items(w.meta), req.id) &&
         !IsRejected(Items(w.meta)[FindIndex(Items(w.meta), req.id).value].status))
    ensures var o := ArchiveAndDelete(w, req, now, io);
      o.result.Failure? && o.result.error.NotAllowed? ==> o.world == w
  {
  }

  /** The guard compares upper-case forms, so the case of the stored status
      does not matter. */
  lemma StatusGuardIgnoresCase(s: string, t: string)
    requires |s| == |t|
    requires forall i :: 0 <= i < |s| ==> UpperChar(s[i]) == UpperChar(t[i])
    ensures IsRejected(Some(s)) <==> IsRejected(Some(t))
  {
  }

  /** Concrete spellings: every case variant of "rejected" passes; an empty
      or absent status and any other word do not. */
  lemma StatusGuardExamples()
    ensures IsRejected(Some("rejected")) && IsRejected(Some("Rejected")) && IsRejected(Some("REJECTED"))
    ensures !IsRejected(Some("")) && !IsRejected(None) && !IsRejected(Some("PENDING"))
  {
  }

  /** The record the operation acts on: the first one carrying the id, and
      it passes the guard. */
  ghost predicate Deletable(w: World, req: Request, io: Faults) {
    && io.readMeta.None?
    && FindIndex(Items(w.meta), req.id).Some?
    && IsRejected(Items(w.meta)[FindIndex(Items(w.meta), req.id).value].status)
  }

  function Target(w: World, req: Request): Doc
    requires FindIndex(Items(w.meta), req.id).Some?
  {
    Items(w.meta)[FindIndex(Items(w.meta), req.id).value]
  }

  /** A removal fault other than ENOENT aborts before any metadata or archive
      write: the whole world is as before. */
  lemma UnlinkFaultAborts(w: World, req: Request, now: string, io: Faults)
    requires Deletable(w, req, io)
    requires HasContent(Target(w, req)) && io.unlink.Some?
    ensures ArchiveAndDelete(w, req, now, io) == Outcome(w, Failure(StorageFault(io.unlink.value)))
  {
  }

  /** Apart from the content area itself, the outcome does not depend on
      which content files exist: a missing file (ENOENT) is swallowed and
      the operation goes on exactly as if the file had been removed. */
  lemma MissingContentSwallowed(w: World, req: Request, now: string, io: Faults, c1: set<string>, c2: set<string>)
    requires io.unlink.None?
    ensures var o1 := ArchiveAndDelete(w.(content := c1), req, now, io);
            var o2 := ArchiveAndDelete(w.(content := c2), req, now, io);
      o1.result == o2.result && o1.world.meta == o2.world.meta && o1.world.archive == o2.world.archive
  {
  }

  /** After a call that got past the content step, the content file is gone,
      whether it existed or not. */
  lemma ContentGoneAfterRemoval(w: World, req: Request, now: string, io: Faults)
    requires Deletable(w, req, io) && HasContent(Target(w, req)) && io.unlink.None?
    ensures ArchiveAndDelete(w, req, now, io).world.content == w.content - {Target(w, req).filename.value}
  {
  }

  /** Success needs every step to go through; then the metadata file holds
      the old list without the first match, the archive file holds the old
      archive plus the stamped copy, and that copy is the return value. */
  lemma SuccessIff(w: World, req: Request, now: string, io: Faults)
    ensures ArchiveAndDelete(w, req, now, io).result.Success? <==>
      (Deletable(w, req, io) && (HasContent(Target(w, req)) ==> io.unlink.None?)
       && io.writeMeta.None? && io.readArchive.None? && io.writeArchive.None?)
  {
  }

  lemma SuccessShape(w: World, req: Request, now: string, io: Faults)
    requires ArchiveAndDelete(w, req, now, io).result.Success?
    ensures Deletable(w, req, io)
    ensures var o := ArchiveAndDelete(w, req, now, io);
            var idx := FindIndex(Items(w.meta), req.id).value;
      && o.world.meta == Holds(RemoveAt(Items(w.meta), idx))
      && o.result.value == Archive(Items(w.meta)[idx], now, ArchivedBy(req), DeletionReason(req))
      && o.world.archive == Holds(Items(w.archive) + [o.result.value])
      && o.world.content == (if HasContent(Target(w, req)) then w.content - {Target(w, req).filename.value} else w.content)
  {
  }

  /** The returned record carries the id asked for, and its archival fields
      are the clock reading and the two options, defaulted to "system" and
      "" when left undefined. */
  lemma ArchivedStamp(w: World, req: Request, now: string, io: Faults)
    requires ArchiveAndDelete(w, req, now, io).result.Success?
    ensures var a := ArchiveAndDelete(w, req, now, io).result.value;
      && JsString(ArchivedField(a, "id")) == req.id
      && ArchivedField(a, "archivedAt") == Some(Text(now))
      && ArchivedField(a, "archivedBy") == Some(Text(if req.performedBy.Some? then req.performedBy.value else "system"))
      && ArchivedField(a, "deletionReason") == Some(if req.reason.Some? then req.reason.value else Text(""))
  {
  }

  /** Removing one position keeps ids unique and, when they were unique,
      leaves no record with the removed record's id. */
  lemma RemoveAtUnique(docs: seq<Doc>, i: nat)
    requires i < |docs| && UniqueIds(docs)
    ensures UniqueIds(RemoveAt(docs, i))
    ensures !HasId(RemoveAt(docs, i), JsString(docs[i].id))
  {
  }

  /** With unique ids, a successful delete leaves no active record with the
      id and keeps the ids unique. */
  lemma SuccessKeepsUniqueIds(w: World, req: Request, now: string, io: Faults)
    requires UniqueIds(Items(w.meta))
    requires ArchiveAndDelete(w, req, now, io).result.Success?
    ensures UniqueIds(Items(ArchiveAndDelete(w, req, now, io).world.meta))
    ensures !HasId(Items(ArchiveAndDelete(w, req, now, io).world.meta), req.id)
  {
  }

  /** The known gap: when the metadata write succeeds but the archive read or
      write then fails, the record is in neither store. */
  lemma ArchiveFaultLosesRecord(w: World, req: Request, now: string, io: Faults)
    requires Deletable(w, req, io) && (HasContent(Target(w, req)) ==> io.unlink.None?)
    requires UniqueIds(Items(w.meta))
    requires io.writeMeta.None? && (io.readArchive.Some? || io.writeArchive.Some?)
    ensures var o := ArchiveAndDelete(w, req, now, io);
      && o.result.Failure? && o.result.error.StorageFault?
      && !HasId(Items(o.world.meta), req.id)
      && o.world.archive == w.archive
  {
  }

  /** The lookup compares `String()` renderings, so a record without an id
      is found by the request id "undefined", one with a null id by "null",
      and one with the number 42 by "42". */
  lemma LookupByRendering(rest: seq<Doc>, status: Option<string>)
    ensures FindIndex([Doc(None, status, None, map[])] + rest, "undefined") == Some(0)
    ensures FindIndex([Doc(Some(Null), status, None, map[])] + rest, "null") == Some(0)
    ensures FindIndex([Doc(Some(Number(42)), status, None, map[])] + rest, "42") == Some(0)
  {
  }
}

=== FILE: results.dfy ===
/** Absence and failure as values. The JavaScript source uses `undefined`
    for a missing field and thrown errors for failures; the model uses these
    two datatypes instead. */
module Results {

  /** A value that may be absent (`undefined` in the source). */
  datatype Option<T> = None | Some(value: T)

  /** The outcome of a step that may throw: a value or the error it threw. */
  datatype Result<R, E> = Success(value: R) | Failure(error: E)
}

=== FILE: stores.dfy ===
/** The three stores behind the archival operation: the metadata file, the
    archive file and the content directory. File-system failures other than
    "no such file" are not a function of the store state; each call takes
    them as an injected fault (`Some(message)`) instead. */
module Stores {
  import opened Results

  /** A JSON-array file on disk: missing, present but empty, or holding a list. */
  datatype FileState<T> = Absent | Blank | Holds(items: seq<T>)

  /** What an undisturbed read of the file yields. */
  function Items<T>(f: FileState<T>): seq<T> {
    if f.Holds? then f.items else []
  }

  /** `readMetadata` / `readArchive`: a missing file (ENOENT) or an empty one
      reads as the empty list; any other fault propagates. */
  function Load<T>(f: FileState<T>, fault: Option<string>): (r: Result<seq<T>, string>)
    ensures r.Failure? <==> fault.Some?
    ensures fault.Some? ==> r.error == fault.value
    ensures fault.None? && (f.Absent? || f.Blank?) ==> r == Success([])
    ensures fault.None? && f.Holds? ==> r == Success(f.items)
  {
    match fault
    case Some(m) => Failure(m)
    case None => Success(Items(f))
  }

  /** `writeMetadata` / `writeArchive`: the whole list replaces the file. */
  function Save<T>(items: seq<T>, fault: Option<string>): (r: Result<FileState<T>, string>)
    ensures r.Success? <==> fault.None?
    ensures fault.Some? ==> r.error == fault.value
    ensures r.Success? ==> r.value.Holds? && Items(r.value) == items
  {
    match fault
    case Some(m) => Failure(m)
    case None => Success(Holds(items))
  }

  /** What a successful save leaves behind is read back unchanged. */
  lemma LoadAfterSave<T>(items: seq<T>, f: FileState<T>)
    requires Save(items, None) == Success(f)
    ensures Load(f, None) == Success(items)
  {
  }

  /** Result of `fs.unlink`. */
  datatype Io = Ok | Missing | Fault(message: string)

  /** `fs.unlink(name)`: removes an existing file, reports ENOENT for a
      missing one; an injected fault takes precedence over both. */
  function Unlink(content: set<string>, name: string, fault: Option<string>): (r: Io)
    ensures r.Ok? <==> fault.None? && name in content
    ensures r.Missing? <==> fault.None? && name !in content
    ensures r.Fault? ==> fault == Some(r.message)
  {
    match fault
    case Some(m) => Fault(m)
    case None => if name in content then Ok else Missing
  }

  /** Removing a file makes it missing: a second unlink of the same name
      reports ENOENT, which is why a repeated content removal is harmless. */
  lemma UnlinkTwiceMissing(content: set<string>, name: string)
    requires Unlink(content, name, None) == Ok
    ensures Unlink(content - {name}, name, None) == Missing
  {
  }
}
